=== FILE: README.md ===
# Twig, modelled in Dafny

Twig is a minimal git-like version-control tool built around one class,
`Twig`. A repository is a `.Twig` folder holding three things:

- `objects/`: a content-addressed store where every file is named by the SHA-1
  hex digest of its content;
- `HEAD`: the id of the latest commit. `init` writes the empty string there,
  and the file may also be missing;
- `index`: the staging area, a JSON array of `{path, hash}` entries.

`add` stores a file's content as a blob and appends an entry to the index.
`commit` writes a record `{timeStamp, message, files, parent}` under the digest
of its JSON text, points HEAD at it and clears the index. `log` follows the
parent links from HEAD. `show` prints each file of a commit next to the
parent's version of the same path.

This project models those operations as pure functions over an immutable
state, `Repository.Repo(objectsDir, objects, head, index)`:

- `head == None` means the HEAD file is missing, so `getCurrentHead` reads null.
- `index == None` means the index file is missing.
- `objectsDir` records whether `objects/` exists. Writing an object throws
  when it does not.

The digest, `JSON.stringify` of a commit record and `JSON.parse` of a stored
object are the fields of `Types.Env`. They are passed to every operation
that hashes, serialises or parses. The model never assumes the digest is
injective. It states what it needs as hypotheses:

- `ParseInvertsSerialize`: parsing gives back every record written.
- `DigestShaped`: every digest is 40 characters long.
- `ObjectStore.NoCollision`, stated for one write at a time: the id is free,
  or it already holds exactly that content.

A collision really does break the history. Overwriting a commit on the chain
can create a cycle, and then the source's `log` loops forever.

JavaScript truthiness of a parent link is `Types.Truthy`. Both null and `""`
mean "no parent", because after `init` the first commit's parent is `""`.

The unbounded `while` loop of `log` is `History.Walk`, which takes fuel.
`Log` gives it one unit of fuel per stored object. `LogDivergesExactly`
proves this bound is exact: `Log` runs out of fuel only when no amount of
fuel would be enough, which is when the source loop would never stop. The
proof rests on `WalkVisitsDistinct`: a walk that stops by itself never
visits a commit twice.

## Model

| member | source | states |
|---|---|---|
| `Repository.Init` | Twig.mjs:17-27 | creates objects/; when HEAD is missing, writes HEAD as "" (a falsy head) and writes the index as [] if it is also missing; when HEAD exists, the failing exclusive write skips the index and the state is unchanged apart from objects/ |
| `Repository.InitIdempotent` | Twig.mjs:17-27 | a second `init` leaves the repository exactly as the first one did |
| `History.LoadAfterPut` | Twig.mjs:163-170 | when JSON.parse inverts JSON.stringify, a commit record stored under the digest of its serialisation reads back, through `getCommitData` and JSON.parse, as exactly that record, whatever else the store holds |
| `ObjectStore.Put` | Twig.mjs:57-60 | after the write, the content is read back under its digest; the only key added or replaced is that digest, and every other object is unchanged |
| `ObjectStore.PutIdempotent` | Twig.mjs:57-60 | storing the same content twice gives the same store as storing it once |
| `ObjectStore.PutStoredIsNoOp` | Twig.mjs:57-60 | storing content that is already stored under its digest creates no second object and changes nothing |
| `ObjectStore.PutExtends` | Twig.mjs:57-60 | a write that meets no other content under the same digest never changes an existing object |
| `Repository.UpdateStagingArea` | Twig.mjs:65-69 | throws when the index is missing; otherwise the index grows by exactly one entry `{path, hash}` at its end, earlier entries stay as they were, and HEAD and the objects are untouched |
| `Repository.StagingAppendsDuplicates` | Twig.mjs:65-69 | staging a path adds one entry for it even if it is already staged, so a repeated path becomes a duplicate, not a replacement; counts for every other path are unchanged |
| `Repository.AddFile` | Twig.mjs:55-63 | throws without effect when objects/ is missing; otherwise the blob is readable under `hash(content)` and is the only object added; then the index gains `{path, hash(content)}` at its end, or the call throws with the blob already written when the index is missing |
| `Repository.AddFileTwice` | Twig.mjs:55-61 | adding identical content again leaves the objects unchanged and stages a second entry with the same id |
| `Repository.Commit` | Twig.mjs:70-87 | throws without effect when the index is missing, or when objects/ is missing; otherwise the serialised record (files = index before the call, parent = HEAD before the call) is stored under its own digest as the only new object, objects/ still exists, HEAD becomes that digest, and the index becomes [] |
| `Repository.CommitRecordReadsBack` | Twig.mjs:70-85 | the object HEAD names after a commit parses back to the record of the staged files, the message, the time stamp and the previous HEAD |
| `Repository.CommitAfterCommitIsEmpty` | Twig.mjs:70-85 | a commit made with nothing added since the last one records an empty file list, and its parent is the previous commit |
| `History.Log` | Twig.mjs:96-106 | `log` prints nothing and completes when HEAD is falsy or missing; it prints at most one entry per stored object and gives up only after printing that many (`LogDivergesExactly` shows it then never would have stopped) |
| `History.Walk` | Twig.mjs:96-106 | the walk prints at most `fuel` entries, and gives up only after printing exactly `fuel` |
| `History.WalkFollowsChain` | Twig.mjs:96-106 | each printed entry is a stored commit that parses, with its own time stamp and message; the first is the start link and each next one is the previous one's parent. The walk completes only at a falsy link (null or ""), throws ObjectNotFound or Malformed only at the link that is missing or fails to parse, and gives up only at a readable commit |
| `History.Stable` | Twig.mjs:96-106 | once a walk stops by itself, more fuel gives the same result, and fuel equal to the number of entries it printed is already enough |
| `History.WalkVisitsDistinct` | Twig.mjs:96-106 | a walk that stops by itself never visits the same commit id twice |
| `History.WalkBoundedByStore` | Twig.mjs:96-106 | a walk that stops by itself prints at most one entry per stored object |
| `History.FuelSuffices` | Twig.mjs:96-106 | any walk that stops by itself is exactly the walk `log` performs with one unit of fuel per stored object |
| `History.LogDivergesExactly` | Twig.mjs:96-106 | `log` runs out of fuel if and only if the walk runs out at every fuel, i.e. the source loop never stops; otherwise it prints at most one entry per stored object |
| `History.WalkInLargerStore` | Twig.mjs:96-106 | a completed walk gives the same result in any store that keeps every object unchanged |
| `Repository.LogInLargerStore` | Twig.mjs:96-106 | adding objects without changing existing ones leaves a completed `log` unchanged |
| `Repository.LogAfterInit` | Twig.mjs:17-27 | on a freshly initialised repository `log` prints nothing and completes |
| `Repository.InitPreservesValid` | Twig.mjs:17-27 | `init` keeps the repository invariant: every object sits under its own digest, and `log` completes |
| `Repository.AddFilePreservesValid` | Twig.mjs:55-69 | adding a file whose blob meets no other content keeps the invariant and leaves `log` unchanged |
| `Repository.CommitExtendsLog` | Twig.mjs:70-106 | after a commit, `log` prints the new commit (its id, time stamp and message) first and then exactly what it printed before, and completes |
| `Repository.CommitPreservesValid` | Twig.mjs:70-85 | a commit whose record meets no other content keeps the invariant |
| `Repository.ValidLogFollowsChain` | Twig.mjs:96-106 | in a repository satisfying the invariant (which carries termination, kept by the `*PreservesValid` lemmas), `log` prints the parent chain from HEAD newest first, at most one entry per stored object, and ends at a falsy link |
| `Repository.Selected` | Twig.mjs:37-47 | `add .` stages exactly the listed entries that are regular files and are not .Twig, node_modules or a dot-name |
| `Repository.SelectedCounts` | Twig.mjs:37-47 | each kept entry is staged as many times as it is listed, and a skipped one never |
| `Repository.SelectedConcat` | Twig.mjs:37-47 | the entries of two consecutive parts of a listing are staged part by part, so the listing order is kept |
| `Repository.SelectedOne` | Twig.mjs:39-46 | a single listed entry is staged exactly when it is a regular file with a name that is not skipped |
| `Repository.AddAll` | Twig.mjs:35-49 | with no file to stage `add .` changes nothing; without objects/ it throws at the first selected file and changes nothing; with the index missing it writes exactly the first selected file's blob (the store becomes that one write) and then throws |
| `Repository.AddAllStagesSelected` | Twig.mjs:35-49 | on an initialised repository `add .` succeeds, keeps the index's earlier entries, and appends one `{cwd/name, hash(content)}` per selected file, in listing order |
| `Repository.AddAllWritesSelected` | Twig.mjs:35-60 | on an initialised repository `add .` adds or replaces exactly the digests of the selected files' contents, and every other object is unchanged |
| `Repository.AddAllStoresBlobs` | Twig.mjs:35-60 | on an initialised repository, when no two selected files share a digest without sharing content, every selected file reads back under its digest as its own content after `add .` |
| `Repository.AddAllPreservesValid` | Twig.mjs:35-69 | `add .` keeps the invariant and leaves `log` unchanged when no selected blob meets other content in the store or among the selected files |
| `Show.Find` | Twig.mjs:153 | returns the index of the first entry whose path equals the query, or nothing exactly when no entry matches |
| `Show.GetParentFileContent` | Twig.mjs:148-158 | gives undefined when the parent commit object is missing or has no entry for the path; throws when the parent does not parse; otherwise gives the blob of the first matching entry, or throws ObjectNotFound when that blob is missing |
| `Show.ReportFile` | Twig.mjs:117-145 | throws ObjectNotFound when the file's blob is missing; with a falsy parent it reports no comparison; with a truthy parent it reports "new file" exactly when the parent object is missing or has no entry for the path, throws Malformed when the parent does not parse, and otherwise, for the first entry with the path, reports a diff of (that entry's content, current content) in that order, or throws ObjectNotFound for that entry's blob when it is missing |
| `Show.ReportFiles` | Twig.mjs:117-146 | reports the files in order, each as its own report; stops at the first file that throws and carries that error |
| `Show.ShowCommitDiff` | Twig.mjs:107-147 | "not found" exactly when no object has that id, so no file is processed; throws when the object does not parse; otherwise reports the commit's files in order against its parent, all of them unless one throws, and then stops at exactly that file with its error |
| `Show.RootCommitShowsNoDiff` | Twig.mjs:122 | a commit whose parent is falsy shows no comparison for any file |
| `Show.MissingParentMeansNewFiles` | Twig.mjs:123-142 | when the parent commit object is missing, every file whose blob exists is reported as a new file |
| `Show.FirstCommitShowsNoDiff` | Twig.mjs:72-78 | the first commit after `init` has parent "" and is shown with no comparison |
| `Show.EditThenCommitShowsDiff` | Twig.mjs:117-158 | commit content `a` at a path, stage `b` at the same path and commit again: `show` on the second commit reports that one file as a diff of `a` against `b` |
| `Show.StagedTwiceReadsFirst` | Twig.mjs:148-158 | a path staged twice, first with `a` then with `b`, and committed reads back as `a`: the first, oldest entry wins |
| `Show.AddThenCommitRoundTrip` | Twig.mjs:148-158 | a file added at a path not yet staged and then committed reads back from that commit with exactly the content added |

## Left out

- Hashing: SHA-1 is a parameter. No collision resistance is assumed; the lemmas that need it state `NoCollision` for the one write they are about.
- Serialisation: `JSON.stringify` and `JSON.parse` are parameters too. A stored object that parses to JSON but is not a commit record (`null`, a number, a string, `false`, an object without `files`) is treated as malformed. The source behaves otherwise for some of these: `show` reports "not found" for a commit that parses to a falsy value (`null`, `0`, `false`, `""`); `getParentFileContent` gives undefined for a parent that parses to a falsy value, so the file is reported as new; `log` reads only `parent`, `timeStamp` and `message`, so it walks on through an object that has a `parent` but no `files`; and for an object that parses to a number, a string or `false`, `log` prints one entry with an undefined date and message and then completes, where the model throws.
- The index is always a well-formed list. A corrupt index file, where `JSON.parse` throws, is not modelled.
- Reading the working file in `addFile`: the text read is passed in, so a file that cannot be read is not modelled.
- `new Date().toISOString()`: the time stamp is passed in.
- `diffLines` from the external `diff` package: the model reports the pair (parent content, current content) it would be given, not the line runs.
- `add .`: `readdir` and `stat` are replaced by a given listing of names, each marked as a file or not with its content. A `stat` that throws is not modelled. `path.join(process.cwd(), name)` is `cwd + "/" + name`, without path normalisation.
- `add` dispatch: `add .` is `AddAll` and any other argument is `AddFile`. The one-line test between them is not a separate member.
- `getCurrentHead` is the `head` field. An object id is used as a map key as-is. `path.join` effects such as `""` naming the objects folder itself, or an id containing `/`, are not modelled.
- Console and `chalk` output are not modelled. That includes the stray "first commit" line `show` prints for every commit it finds, and the `commander` CLI wiring.
- Concurrency and partial writes: each operation is one atomic transition. Writes made before a throw are kept (see `AddFile`).

## Notes on the source's behaviour

- The root commit's `parent` is the string HEAD held, which is `""` after `init`. It is null only when the HEAD file is missing. The model follows the code, and `Truthy` treats both as "no parent".
- A missing object is not always an error. `show` on a missing id reports "not found". A missing parent commit makes `getParentFileContent` give undefined, so every file is reported as new. Only a missing blob, or a missing commit during `log`, throws. The model follows the code.
- Staging never deduplicates: a path added twice is committed twice. `getParentFileContent` then takes the first, oldest, entry for the path (`StagedTwiceReadsFirst`). The model follows the code.

=== FILE: history.dfy ===
/**
  The commit chain and `log`: starting at HEAD, read each commit object,
  report it, and move to its `parent`, stopping at the first falsy link.

  Twig's `log` loop has no bound. The model walks with fuel and proves that
  fuel equal to the number of stored objects is exact: the walk with that
  fuel gives up only when Twig's `log` loop would run forever.
 */
module History {
  import opened Types
  import opened ObjectStore

  /** What `log` prints for one commit. */
  datatype LogEntry = LogEntry(id: Id, timeStamp: string, message: string)

  /** How a walk stopped: at a falsy link, by throwing, or out of fuel. */
  datatype End = Complete | Failed(error: Error) | OutOfFuel

  /** The entries printed, newest first, and how the walk stopped. */
  datatype LogOutcome = LogOutcome(entries: seq<LogEntry>, end: End)

  /** Reading objects/<id> and parsing it as a commit record. */
  function Load(env: Env, s: Store, id: Id): Option<CommitRecord>
  {
    if id in s then env.parse(s[id]) else None
  }

  /** A record written under the digest of its serialisation reads back as
      that record, whatever else the store holds. */
  lemma LoadAfterPut(env: Env, s: Store, c: CommitRecord)
    requires ParseInvertsSerialize(env)
    ensures Load(env, Put(env, s, env.serialize(c)), env.hash(env.serialize(c))) == Some(c)
  {
    assert env.parse(env.serialize(c)) == Some(c);
  }

  /** `es` lists, newest first, the commits met by following `parent` from
      `p`: each is stored, parses, is reported with its own time stamp and
      message, and links to the next one. */
  ghost predicate Follows(env: Env, s: Store, p: Option<Id>, es: seq<LogEntry>)
  {
    && (|es| > 0 ==> p == Some(es[0].id))
    && forall i :: 0 <= i < |es| ==>
         && Truthy(Some(es[i].id))
         && Load(env, s, es[i].id).Some?
         && Load(env, s, es[i].id).value.timeStamp == es[i].timeStamp
         && Load(env, s, es[i].id).value.message == es[i].message
         && (i + 1 < |es| ==> Load(env, s, es[i].id).value.parent == Some(es[i + 1].id))
  }

  /** The link the walk looks at after printing `es`. */
  function Next(env: Env, s: Store, p: Option<Id>, es: seq<LogEntry>): Option<Id>
  {
    if |es| == 0 then p
    else match Load(env, s, es[|es| - 1].id)
      case Some(c) => c.parent
      case None => None
  }

  /** The loop of `log` started at link `p`, allowed `fuel` commits. It
      gives up only after printing `fuel` entries. */
  function Walk(env: Env, s: Store, p: Option<Id>, fuel: nat): (r: LogOutcome)
    ensures |r.entries| <= fuel
    ensures r.end.OutOfFuel? ==> |r.entries| == fuel
    decreases fuel
  {
    if !Truthy(p) then LogOutcome([], Complete)
    else if p.value !in s then LogOutcome([], Failed(ObjectNotFound(p.value)))
    else match env.parse(s[p.value])
      case None => LogOutcome([], Failed(Malformed(p.value)))
      case Some(c) =>
        if fuel == 0 then LogOutcome([], OutOfFuel)
        else
          var rest := Walk(env, s, c.parent, fuel - 1);
          LogOutcome([LogEntry(p.value, c.timeStamp, c.message)] + rest.entries, rest.end)
  }

  /** What the walk prints is the chain from `p`, newest first; it completes
      only at a falsy link, throws only at a missing or unparsable object,
      and gives up only at a commit it could still read. */
  lemma {:induction false} WalkFollowsChain(env: Env, s: Store, p: Option<Id>, fuel: nat)
    ensures var r := Walk(env, s, p, fuel);
            && Follows(env, s, p, r.entries)
            && (r.end.Complete? ==> !Truthy(Next(env, s, p, r.entries)))
            && (r.end.Failed? ==>
                  var q := Next(env, s, p, r.entries);
                  && Truthy(q)
                  && (q.value !in s ==> r.end.error == ObjectNotFound(q.value))
                  && (q.value in s ==> r.end.error == Malformed(q.value) && env.parse(s[q.value]).None?))
            && (r.end.OutOfFuel? ==>
                  && Truthy(Next(env, s, p, r.entries))
                  && Load(env, s, Next(env, s, p, r.entries).value).Some?)
    decreases fuel
  {
    if Truthy(p) && p.value in s && env.parse(s[p.value]).Some? && fuel > 0 {
      var c := env.parse(s[p.value]).value;
      var rest := Walk(env, s, c.parent, fuel - 1);
      WalkFollowsChain(env, s, c.parent, fuel - 1);
      var es := [LogEntry(p.value, c.timeStamp, c.message)] + rest.entries;
      assert Walk(env, s, p, fuel).entries == es;
      assert Next(env, s, p, es) == Next(env, s, c.parent, rest.entries);
      forall i | 0 <= i < |es|
        ensures i + 1 < |es| ==> Load(env, s, es[i].id).value.parent == Some(es[i + 1].id)
      {
        if i > 0 {
          assert es[i] == rest.entries[i - 1];
        }
      }
    }
  }

  /** `log` on a store with the given HEAD: the walk with one unit of fuel
      per stored object (`LogDivergesExactly` shows that this is enough). */
  function Log(env: Env, s: Store, head: Option<Id>): (r: LogOutcome)
    ensures |r.entries| <= |s|
    ensures r.end.OutOfFuel? ==> |r.entries| == |s|
    ensures !Truthy(head) ==> r == LogOutcome([], Complete)
  {
    Walk(env, s, head, |s|)
  }

  /** Once a walk stops on its own, more fuel changes nothing, and fuel for
      the entries it printed is already enough. */
  lemma {:induction false} Stable(env: Env, s: Store, p: Option<Id>, n: nat, m: nat)
    requires !Walk(env, s, p, n).end.OutOfFuel?
    requires |Walk(env, s, p, n).entries| <= m
    ensures Walk(env, s, p, m) == Walk(env, s, p, n)
    decreases n
  {
    if Truthy(p) && p.value in s && env.parse(s[p.value]).Some? {
      var c := env.parse(s[p.value]).value;
      Stable(env, s, c.parent, n - 1, m - 1);
    }
  }

  /** One step of the walk: a readable commit with fuel left is printed and
      the walk moves on to its parent. */
  lemma WalkStep(env: Env, s: Store, p: Option<Id>, n: nat)
    requires |Walk(env, s, p, n).entries| > 0
    ensures Truthy(p) && p.value in s && env.parse(s[p.value]).Some? && n > 0
    ensures var c := env.parse(s[p.value]).value;
            var rest := Walk(env, s, c.parent, n - 1);
            Walk(env, s, p, n) == LogOutcome([LogEntry(p.value, c.timeStamp, c.message)] + rest.entries, rest.end)
  {
  }

  /** The walk from the i-th printed commit is the rest of the walk. */
  lemma {:induction false} SuffixWalk(env: Env, s: Store, p: Option<Id>, n: nat, i: nat)
    requires i < |Walk(env, s, p, n).entries|
    ensures var w := Walk(env, s, p, n);
            Walk(env, s, Some(w.entries[i].id), n - i) == LogOutcome(w.entries[i..], w.end)
    decreases n
  {
    var w := Walk(env, s, p, n);
    WalkStep(env, s, p, n);
    var c := env.parse(s[p.value]).value;
    var rest := Walk(env, s, c.parent, n - 1);
    if i == 0 {
      assert Some(w.entries[0].id) == p;
      assert w.entries[0..] == w.entries;
    } else {
      SuffixWalk(env, s, c.parent, n - 1, i - 1);
      assert w.entries[i] == rest.entries[i - 1];
      assert w.entries[i..] == rest.entries[i - 1..];
    }
  }

  ghost predicate DistinctIds(es: seq<LogEntry>)
  {
    forall i, j :: 0 <= i < j < |es| ==> es[i].id != es[j].id
  }

  /** A walk that stops on its own never visits a commit twice: a repeated
      id would repeat the whole remaining walk, which is then shorter than
      itself. */
  lemma WalkVisitsDistinct(env: Env, s: Store, p: Option<Id>, n: nat)
    requires !Walk(env, s, p, n).end.OutOfFuel?
    ensures DistinctIds(Walk(env, s, p, n).entries)
  {
    var w := Walk(env, s, p, n);
    forall i, j | 0 <= i < j < |w.entries|
      ensures w.entries[i].id != w.entries[j].id
    {
      if w.entries[i].id == w.entries[j].id {
        SuffixWalk(env, s, p, n, i);
        SuffixWalk(env, s, p, n, j);
        Stable(env, s, Some(w.entries[j].id), n - j, n - i);
        assert false;
      }
    }
  }

  function Ids(es: seq<LogEntry>): set<Id>
  {
    if |es| == 0 then {} else {es[0].id} + Ids(es[1..])
  }

  lemma {:induction false} IdsMember(es: seq<LogEntry>, x: Id)
    requires x in Ids(es)
    ensures exists i :: 0 <= i < |es| && es[i].id == x
  {
    if es[0].id != x {
      IdsMember(es[1..], x);
      var i :| 0 <= i < |es[1..]| && es[1..][i].id == x;
      assert es[i + 1].id == x;
    }
  }

  lemma {:induction false} DistinctCard(es: seq<LogEntry>)
    requires DistinctIds(es)
    ensures |Ids(es)| == |es|
  {
    if |es| > 0 {
      var tail := es[1..];
      assert DistinctIds(tail) by {
        forall i, j | 0 <= i < j < |tail| ensures tail[i].id != tail[j].id {
          assert tail[i] == es[i + 1] && tail[j] == es[j + 1];
        }
      }
      DistinctCard(tail);
      if es[0].id in Ids(tail) {
        IdsMember(tail, es[0].id);
        assert false;
      }
    }
  }

  lemma SubsetCard(a: set<Id>, b: set<Id>)
    requires a <= b
    ensures |a| <= |b|
  {
    assert b == a + (b - a);
  }

  /** A walk that stops on its own prints at most one entry per stored
      object. */
  lemma WalkBoundedByStore(env: Env, s: Store, p: Option<Id>, n: nat)
    requires !Walk(env, s, p, n).end.OutOfFuel?
    ensures |Walk(env, s, p, n).entries| <= |s|
  {
    var es := Walk(env, s, p, n).entries;
    WalkVisitsDistinct(env, s, p, n);
    DistinctCard(es);
    WalkFollowsChain(env, s, p, n);
    forall x | x in Ids(es) ensures x in s.Keys {
      IdsMember(es, x);
    }
    SubsetCard(Ids(es), s.Keys);
  }

  /** Any walk that stops on its own is the walk `log` performs. */
  lemma FuelSuffices(env: Env, s: Store, p: Option<Id>, n: nat)
    requires !Walk(env, s, p, n).end.OutOfFuel?
    ensures Walk(env, s, p, |s|) == Walk(env, s, p, n)
  {
    WalkBoundedByStore(env, s, p, n);
    Stable(env, s, p, n, |s|);
  }

  /** The fuel of `Log` is exact: it runs out of fuel exactly when Twig's
      `log` loop would never stop, and otherwise prints at most one entry per
      stored object. */
  lemma LogDivergesExactly(env: Env, s: Store, head: Option<Id>)
    ensures Log(env, s, head).end.OutOfFuel? <==> forall n: nat :: Walk(env, s, head, n).end.OutOfFuel?
    ensures !Log(env, s, head).end.OutOfFuel? ==> |Log(env, s, head).entries| <= |s|
  {
    if !Log(env, s, head).end.OutOfFuel? {
      WalkBoundedByStore(env, s, head, |s|);
    } else {
      forall n: nat ensures Walk(env, s, head, n).end.OutOfFuel? {
        if !Walk(env, s, head, n).end.OutOfFuel? {
          FuelSuffices(env, s, head, n);
        }
      }
    }
  }

  /** A walk that completes reads only objects it finds; adding objects
      without changing existing ones does not change it. */
  lemma {:induction false} WalkInLargerStore(env: Env, s: Store, s': Store, p: Option<Id>, n: nat)
    requires Extends(s, s')
    requires Walk(env, s, p, n).end.Complete?
    ensures Walk(env, s', p, n) == Walk(env, s, p, n)
    decreases n
  {
    if Truthy(p) {
      var c := env.parse(s[p.value]).value;
      WalkInLargerStore(env, s, s', c.parent, n - 1);
    }
  }
}

=== FILE: object_store.dfy ===
/**
  The content-addressed object store: the files under `.Twig/objects`, each
  named by the digest of its own content. Blobs and commit records share the
  store and are told apart only by how a caller reads them.
 */
module ObjectStore {
  import opened Types

  type Store = map<Id, Text>

  /** Reading objects/<id>: the content, or nothing when no such file exists. */
  function Get(s: Store, id: Id): Option<Text>
  {
    if id in s then Some(s[id]) else None
  }

  /** Writing `c` to objects/<hash(c)>, overwriting whatever was there. Only
      that one key is added or replaced. */
  function Put(env: Env, s: Store, c: Text): (s': Store)
    ensures Get(s', env.hash(c)) == Some(c)
    ensures s'.Keys == s.Keys + {env.hash(c)}
    ensures forall k :: k in s && k != env.hash(c) ==> s'[k] == s[k]
  {
    s[env.hash(c) := c]
  }

  /** Every object sits under the digest of its own content. */
  ghost predicate ContentAddressed(env: Env, s: Store)
  {
    forall k :: k in s ==> env.hash(s[k]) == k
  }

  /** Writing `c` meets no other content under the same digest: the id is
      free, or it already holds exactly `c`. This is the only place the model
      relies on the digest: it never assumes the hash is injective. */
  ghost predicate NoCollision(env: Env, s: Store, c: Text)
  {
    env.hash(c) in s ==> s[env.hash(c)] == c
  }

  /** `s'` holds every object of `s`, unchanged. */
  ghost predicate Extends(s: Store, s': Store)
  {
    forall k :: k in s ==> k in s' && s'[k] == s[k]
  }

  lemma PutKeepsContentAddressed(env: Env, s: Store, c: Text)
    requires ContentAddressed(env, s)
    ensures ContentAddressed(env, Put(env, s, c))
  {
  }

  /** Storing content that is already stored changes nothing: no second
      object appears. */
  lemma PutStoredIsNoOp(env: Env, s: Store, c: Text)
    requires Get(s, env.hash(c)) == Some(c)
    ensures Put(env, s, c) == s
  {
  }

  /** Storing the same content twice is the same as storing it once. */
  lemma PutIdempotent(env: Env, s: Store, c: Text)
    ensures Put(env, Put(env, s, c), c) == Put(env, s, c)
  {
    PutStoredIsNoOp(env, Put(env, s, c), c);
  }

  /** Without a collision a write never changes an existing object. */
  lemma PutExtends(env: Env, s: Store, c: Text)
    requires NoCollision(env, s, c)
    ensures Extends(s, Put(env, s, c))
  {
  }
}

=== FILE: repository.dfy ===
/**
  The repository `.Twig`: the objects directory, HEAD and the index, and the
  operations that change them -- `init`, `add` (one file or a directory
  listing), `updateStagingArea` and `commit` -- as pure transitions.

  An operation returns the state it leaves behind together with the error it
  threw, if any, so that writes made before a throw stay visible.
 */
module Repository {
  import opened Types
  import opened ObjectStore
  import opened History

  /** `objectsDir`: whether .Twig/objects exists. `head` and `index` are
      `None` when their file is missing. */
  datatype Repo = Repo(objectsDir: bool, objects: Store, head: Option<Id>, index: Option<seq<Entry>>)

  datatype Outcome = Outcome(repo: Repo, failure: Option<Error>)

  /** A directory with no .Twig folder in it. */
  const Fresh: Repo := Repo(false, map[], None, None)

  /** `init`: make objects/ (recursively, so never failing), then create HEAD
      as "" and the index as [] with exclusive writes. When HEAD exists the
      first write throws and the index write is skipped; when only the index
      exists its write throws. Either throw is caught. */
  function Init(r: Repo): (r': Repo)
    ensures r'.objectsDir && r'.objects == r.objects
    ensures r.head.Some? ==> r' == r.(objectsDir := true)
    ensures r.head.None? ==> r'.head == Some("") && !Truthy(r'.head)
    ensures r.head.None? && r.index.None? ==> r'.index == Some([])
    ensures r.index.Some? ==> r'.index == r.index
  {
    if r.head.Some? then r.(objectsDir := true)
    else r.(objectsDir := true, head := Some(""), index := if r.index.None? then Some([]) else r.index)
  }

  /** Running `init` again changes nothing. */
  lemma InitIdempotent(r: Repo)
    ensures Init(Init(r)) == Init(r)
  {
  }

  /** `updateStagingArea`: read the index, push one entry, write it back.
      Earlier entries are kept as they are, and a path already staged is
      staged again rather than replaced. */
  function UpdateStagingArea(r: Repo, path: string, hash: Id): (o: Outcome)
    ensures r.index.None? ==> o == Outcome(r, Some(IndexMissing))
    ensures r.index.Some? ==>
              && o.failure.None?
              && o.repo.objectsDir == r.objectsDir && o.repo.objects == r.objects && o.repo.head == r.head
              && o.repo.index.Some?
              && |o.repo.index.value| == |r.index.value| + 1
              && o.repo.index.value[..|r.index.value|] == r.index.value
              && o.repo.index.value[|r.index.value|] == Entry(path, hash)
  {
    match r.index
    case None => Outcome(r, Some(IndexMissing))
    case Some(idx) => Outcome(r.(index := Some(idx + [Entry(path, hash)])), None)
  }

  /** How many entries stage `path`. */
  function CountPath(idx: seq<Entry>, path: string): nat
  {
    if |idx| == 0 then 0
    else (if idx[0].path == path then 1 else 0) + CountPath(idx[1..], path)
  }

  lemma {:induction false} CountPathAppend(idx: seq<Entry>, e: Entry, path: string)
    ensures CountPath(idx + [e], path) == CountPath(idx, path) + (if e.path == path then 1 else 0)
  {
    if |idx| > 0 {
      assert (idx + [e])[1..] == idx[1..] + [e];
      CountPathAppend(idx[1..], e, path);
    }
  }

  /** Staging a path adds exactly one entry for it -- a duplicate if it was
      already staged -- and leaves the count of every other path alone. */
  lemma StagingAppendsDuplicates(r: Repo, path: string, hash: Id, other: string)
    requires r.index.Some?
    ensures var idx' := UpdateStagingArea(r, path, hash).repo.index.value;
            && CountPath(idx', path) == CountPath(r.index.value, path) + 1
            && (other != path ==> CountPath(idx', other) == CountPath(r.index.value, other))
  {
    CountPathAppend(r.index.value, Entry(path, hash), path);
    CountPathAppend(r.index.value, Entry(path, hash), other);
  }

  /** `addFile`: write the blob to objects/<hash(content)>, then stage it.
      `content` is what reading the file gave. */
  function AddFile(env: Env, r: Repo, path: string, content: Text): (o: Outcome)
    ensures !r.objectsDir ==> o == Outcome(r, Some(ObjectsDirMissing))
    ensures r.objectsDir ==>
              && Get(o.repo.objects, env.hash(content)) == Some(content)
              && o.repo.objects.Keys == r.objects.Keys + {env.hash(content)}
              && (forall k :: k in r.objects && k != env.hash(content) ==> o.repo.objects[k] == r.objects[k])
              && o.repo.head == r.head && o.repo.objectsDir
    ensures r.objectsDir && r.index.None? ==> o.failure == Some(IndexMissing) && o.repo.index.None?
    ensures r.objectsDir && r.index.Some? ==>
              && o.failure.None?
              && o.repo.index.Some?
              && |o.repo.index.value| == |r.index.value| + 1
              && o.repo.index.value[..|r.index.value|] == r.index.value
              && o.repo.index.value[|r.index.value|] == Entry(path, env.hash(content))
  {
    if !r.objectsDir then Outcome(r, Some(ObjectsDirMissing))
    else UpdateStagingArea(r.(objects := Put(env, r.objects, content)), path, env.hash(content))
  }

  /** Adding identical content again reuses its id and leaves the objects
      as they were; the index gains a second entry with the same id. */
  lemma AddFileTwice(env: Env, r: Repo, path: string, content: Text)
    requires r.objectsDir && r.index.Some?
    ensures var o1 := AddFile(env, r, path, content);
            var o2 := AddFile(env, o1.repo, path, content);
            && o2.repo.objects == o1.repo.objects
            && o2.repo.index == Some(r.index.value + [Entry(path, env.hash(content)), Entry(path, env.hash(content))])
  {
    var o1 := AddFile(env, r, path, content);
    var e := Entry(path, env.hash(content));
    PutStoredIsNoOp(env, o1.repo.objects, content);
    assert o1.repo.index.value == r.index.value + [e];
    assert r.index.value + [e] + [e] == r.index.value + [e, e];
  }

  /** The record `commit` builds: the index as it stands and HEAD as parent. */
  function NewRecord(r: Repo, message: string, timeStamp: string): CommitRecord
    requires r.index.Some?
  {
    CommitRecord(timeStamp, message, r.index.value, r.head)
  }

  /** `commit`: read the index (throwing when it is missing), read HEAD (null
      when missing), write the serialised record under its own digest, point
      HEAD at it and clear the index. The time stamp is passed in. */
  function Commit(env: Env, r: Repo, message: string, timeStamp: string): (o: Outcome)
    ensures r.index.None? ==> o == Outcome(r, Some(IndexMissing))
    ensures r.index.Some? && !r.objectsDir ==> o == Outcome(r, Some(ObjectsDirMissing))
    ensures r.index.Some? && r.objectsDir ==>
              var c := env.serialize(NewRecord(r, message, timeStamp));
              var id := env.hash(c);
              && o.failure.None?
              && o.repo.objectsDir
              && o.repo.head == Some(id)
              && o.repo.index == Some([])
              && Get(o.repo.objects, id) == Some(c)
              && o.repo.objects.Keys == r.objects.Keys + {id}
              && (forall k :: k in r.objects && k != id ==> o.repo.objects[k] == r.objects[k])
  {
    match r.index
    case None => Outcome(r, Some(IndexMissing))
    case Some(idx) =>
      if !r.objectsDir then Outcome(r, Some(ObjectsDirMissing))
      else
        var c := env.serialize(CommitRecord(timeStamp, message, idx, r.head));
        Outcome(Repo(true, Put(env, r.objects, c), Some(env.hash(c)), Some([])), None)
  }

  /** The new HEAD reads back as the record built from the staged files and
      the previous HEAD. */
  lemma CommitRecordReadsBack(env: Env, r: Repo, message: string, timeStamp: string)
    requires ParseInvertsSerialize(env)
    requires r.index.Some? && r.objectsDir
    ensures var r' := Commit(env, r, message, timeStamp).repo;
            && r'.head.Some?
            && Load(env, r'.objects, r'.head.value) == Some(CommitRecord(timeStamp, message, r.index.value, r.head))
  {
    var c := env.serialize(NewRecord(r, message, timeStamp));
    assert env.parse(c) == Some(NewRecord(r, message, timeStamp));
  }

  /** A second commit with nothing added in between records no files, and
      its parent is the first commit. */
  lemma CommitAfterCommitIsEmpty(env: Env, r: Repo, m1: string, t1: string, m2: string, t2: string)
    requires ParseInvertsSerialize(env)
    requires r.index.Some? && r.objectsDir
    ensures var r1 := Commit(env, r, m1, t1).repo;
            var r2 := Commit(env, r1, m2, t2).repo;
            Load(env, r2.objects, r2.head.value) == Some(CommitRecord(t2, m2, [], r1.head))
  {
    var r1 := Commit(env, r, m1, t1).repo;
    CommitRecordReadsBack(env, r1, m2, t2);
  }

  /** The state every operation keeps: objects are content-addressed and
      `log` completes. */
  ghost predicate Valid(env: Env, r: Repo)
  {
    && ContentAddressed(env, r.objects)
    && Log(env, r.objects, r.head).end.Complete?
  }

  lemma FreshValid(env: Env)
    ensures Valid(env, Fresh)
  {
  }

  lemma InitPreservesValid(env: Env, r: Repo)
    requires Valid(env, r)
    ensures Valid(env, Init(r))
  {
  }

  /** On a just-initialised repository `log` prints nothing. */
  lemma LogAfterInit(env: Env, r: Repo)
    requires r.head.None?
    ensures Log(env, Init(r).objects, Init(r).head) == LogOutcome([], Complete)
  {
  }

  /** Growing the store without collisions leaves a completed `log` as it
      was. */
  lemma LogInLargerStore(env: Env, s: Store, s': Store, head: Option<Id>)
    requires Extends(s, s')
    requires Log(env, s, head).end.Complete?
    ensures Log(env, s', head) == Log(env, s, head)
  {
    WalkInLargerStore(env, s, s', head, |s|);
    FuelSuffices(env, s', head, |s|);
  }

  /** Adding a file, when its blob meets no other content under the same
      digest, keeps the invariant and does not change the history. */
  lemma AddFilePreservesValid(env: Env, r: Repo, path: string, content: Text)
    requires Valid(env, r)
    requires NoCollision(env, r.objects, content)
    ensures var r' := AddFile(env, r, path, content).repo;
            && Valid(env, r')
            && Log(env, r'.objects, r'.head) == Log(env, r.objects, r.head)
  {
    if r.objectsDir {
      PutExtends(env, r.objects, content);
      PutKeepsContentAddressed(env, r.objects, content);
      LogInLargerStore(env, r.objects, Put(env, r.objects, content), r.head);
    }
  }

  /** After a commit, `log` prints the new commit first and then exactly
      what it printed before. Assumes only that the record's digest meets no
      other content and that JSON.parse inverts JSON.stringify. */
  lemma CommitExtendsLog(env: Env, r: Repo, message: string, timeStamp: string)
    requires Valid(env, r)
    requires ParseInvertsSerialize(env) && DigestShaped(env)
    requires r.index.Some? && r.objectsDir
    requires NoCollision(env, r.objects, env.serialize(NewRecord(r, message, timeStamp)))
    ensures var r' := Commit(env, r, message, timeStamp).repo;
            Log(env, r'.objects, r'.head)
            == LogOutcome([LogEntry(r'.head.value, timeStamp, message)] + Log(env, r.objects, r.head).entries, Complete)
  {
    var rec := NewRecord(r, message, timeStamp);
    var c := env.serialize(rec);
    var id := env.hash(c);
    var s := r.objects;
    var s' := Put(env, s, c);
    assert |id| == 40;
    assert env.parse(c) == Some(rec);
    PutExtends(env, s, c);
    WalkInLargerStore(env, s, s', r.head, |s|);
    var w := Walk(env, s', Some(id), |s| + 1);
    assert w == LogOutcome([LogEntry(id, timeStamp, message)] + Log(env, s, r.head).entries, Complete);
    FuelSuffices(env, s', Some(id), |s| + 1);
  }

  /** Committing keeps the invariant. */
  lemma CommitPreservesValid(env: Env, r: Repo, message: string, timeStamp: string)
    requires Valid(env, r)
    requires ParseInvertsSerialize(env) && DigestShaped(env)
    requires r.index.Some? ==> NoCollision(env, r.objects, env.serialize(NewRecord(r, message, timeStamp)))
    ensures Valid(env, Commit(env, r, message, timeStamp).repo)
  {
    if r.index.Some? && r.objectsDir {
      CommitExtendsLog(env, r, message, timeStamp);
      PutKeepsContentAddressed(env, r.objects, env.serialize(NewRecord(r, message, timeStamp)));
    }
  }

  /** What `log` prints in a valid repository: the parent chain from HEAD,
      newest first, at most one entry per stored object, ending at a falsy
      link. That `log` terminates at all is what `Valid` carries and what
      `InitPreservesValid`, `AddFilePreservesValid` and `CommitPreservesValid`
      keep. */
  lemma ValidLogFollowsChain(env: Env, r: Repo)
    requires Valid(env, r)
    ensures var l := Log(env, r.objects, r.head);
            && |l.entries| <= |r.objects|
            && Follows(env, r.objects, r.head, l.entries)
            && !Truthy(Next(env, r.objects, r.head, l.entries))
  {
    LogDivergesExactly(env, r.objects, r.head);
    WalkFollowsChain(env, r.objects, r.head, |r.objects|);
  }

  /** One name returned by readdir, whether `stat` calls it a file, and what
      reading it gives. */
  datatype DirEntry = DirEntry(name: string, isFile: bool, content: Text)

  /** The names `add .` passes over: the .Twig folder, node_modules and
      anything starting with a dot. */
  predicate Skipped(name: string)
  {
    name == ".Twig" || name == "node_modules" || (|name| > 0 && name[0] == '.')
  }

  /** Whether `add .` stages a listed entry. */
  predicate Kept(d: DirEntry)
  {
    !Skipped(d.name) && d.isFile
  }

  /** The listing entries `add .` stages, in listing order.
      `SelectedCounts` states the multiplicities and `SelectedConcat` the
      order. */
  function Selected(listing: seq<DirEntry>): (r: seq<DirEntry>)
    ensures forall d :: d in r <==> d in listing && Kept(d)
    ensures |r| <= |listing|
  {
    if |listing| == 0 then []
    else
      var rest := Selected(listing[1..]);
      assert forall d :: d in listing <==> d == listing[0] || d in listing[1..];
      if Kept(listing[0]) then [listing[0]] + rest else rest
  }

  /** Filtering a listing in two parts gives the two filtered parts one
      after the other; with `SelectedOne` this says `Selected` keeps the
      listing order. */
  lemma {:induction false} SelectedConcat(a: seq<DirEntry>, b: seq<DirEntry>)
    ensures Selected(a + b) == Selected(a) + Selected(b)
  {
    if |a| == 0 {
      assert a + b == b;
    } else {
      var h := if Kept(a[0]) then [a[0]] else [];
      assert (a + b)[0] == a[0];
      assert (a + b)[1..] == a[1..] + b;
      assert Selected(a + b) == h + Selected(a[1..] + b);
      assert Selected(a) == h + Selected(a[1..]);
      SelectedConcat(a[1..], b);
    }
  }

  /** `add .` stages each kept entry as many times as it is listed, and
      nothing else. */
  lemma {:induction false} SelectedCounts(listing: seq<DirEntry>, d: DirEntry)
    ensures multiset(Selected(listing))[d] == if Kept(d) then multiset(listing)[d] else 0
  {
    if |listing| > 0 {
      assert listing == [listing[0]] + listing[1..];
      SelectedCounts(listing[1..], d);
    }
  }

  /** A single listed entry is staged exactly when it is kept. */
  lemma SelectedOne(d: DirEntry)
    ensures Selected([d]) == if Kept(d) then [d] else []
  {
    assert [d][1..] == [];
  }

  /** The path `add .` stages for a directory entry. */
  function JoinPath(cwd: string, name: string): string
  {
    cwd + "/" + name
  }

  /** `add .`: `addFile` on every listed file that is not skipped, in
      listing order, stopping at the first throw. */
  function AddAll(env: Env, r: Repo, cwd: string, listing: seq<DirEntry>): (o: Outcome)
    ensures o.repo.head == r.head
    ensures o.failure.None? && r.index.Some? ==> o.repo.index.Some?
    ensures |Selected(listing)| == 0 ==> o == Outcome(r, None)
    ensures !r.objectsDir && |Selected(listing)| > 0 ==> o == Outcome(r, Some(ObjectsDirMissing))
    ensures r.objectsDir && r.index.None? && |Selected(listing)| > 0 ==>
              && o.failure == Some(IndexMissing)
              && o.repo.index.None?
              && o.repo.objects == Put(env, r.objects, Selected(listing)[0].content)
    decreases |listing|
  {
    if |listing| == 0 then Outcome(r, None)
    else
      var d := listing[0];
      if !Kept(d) then AddAll(env, r, cwd, listing[1..])
      else
        var o := AddFile(env, r, JoinPath(cwd, d.name), d.content);
        if o.failure.Some? then o else AddAll(env, o.repo, cwd, listing[1..])
  }

  /** The index entries `add .` makes for the selected files: one per file,
      in order, each the joined path and the digest of the content. */
  function StagedEntries(env: Env, cwd: string, sel: seq<DirEntry>): (r: seq<Entry>)
    ensures |r| == |sel|
    ensures forall i :: 0 <= i < |sel| ==> r[i] == Entry(JoinPath(cwd, sel[i].name), env.hash(sel[i].content))
  {
    if |sel| == 0 then []
    else
      var rest := StagedEntries(env, cwd, sel[1..]);
      assert forall i :: 1 <= i < |sel| ==> sel[i] == sel[1..][i - 1];
      [Entry(JoinPath(cwd, sel[0].name), env.hash(sel[0].content))] + rest
  }

  /** One step of `add .` over a listed entry it passes over. */
  lemma AddAllSkips(env: Env, r: Repo, cwd: string, listing: seq<DirEntry>)
    requires |listing| > 0 && !Kept(listing[0])
    ensures AddAll(env, r, cwd, listing) == AddAll(env, r, cwd, listing[1..])
    ensures Selected(listing) == Selected(listing[1..])
  {
  }

  /** One step of `add .` over a listed file it stages. */
  lemma AddAllTakes(env: Env, r: Repo, cwd: string, listing: seq<DirEntry>)
    requires r.objectsDir && r.index.Some?
    requires |listing| > 0 && Kept(listing[0])
    ensures var d := listing[0];
            var r1 := r.(objects := Put(env, r.objects, d.content),
                         index := Some(r.index.value + [Entry(JoinPath(cwd, d.name), env.hash(d.content))]));
            AddAll(env, r, cwd, listing) == AddAll(env, r1, cwd, listing[1..])
    ensures StagedEntries(env, cwd, Selected(listing))
            == [Entry(JoinPath(cwd, listing[0].name), env.hash(listing[0].content))] + StagedEntries(env, cwd, Selected(listing[1..]))
  {
    assert Selected(listing) == [listing[0]] + Selected(listing[1..]);
  }

  /** On an initialised repository `add .` succeeds and appends one entry per
      selected file, in listing order, after the entries already staged. */
  lemma {:induction false} AddAllStagesSelected(env: Env, r: Repo, cwd: string, listing: seq<DirEntry>)
    requires r.objectsDir && r.index.Some?
    ensures var o := AddAll(env, r, cwd, listing);
            && o.failure.None? && o.repo.objectsDir
            && o.repo.index == Some(r.index.value + StagedEntries(env, cwd, Selected(listing)))
    decreases |listing|
  {
    if |listing| == 0 {
      assert r.index.value + [] == r.index.value;
    } else if !Kept(listing[0]) {
      AddAllSkips(env, r, cwd, listing);
      AddAllStagesSelected(env, r, cwd, listing[1..]);
    } else {
      var d := listing[0];
      var e := Entry(JoinPath(cwd, d.name), env.hash(d.content));
      var r1 := r.(objects := Put(env, r.objects, d.content), index := Some(r.index.value + [e]));
      AddAllTakes(env, r, cwd, listing);
      AddAllStagesSelected(env, r1, cwd, listing[1..]);
      ConcatAssoc(r.index.value, [e], StagedEntries(env, cwd, Selected(listing[1..])));
    }
  }

  /** The ids `add .` writes to: the digest of every selected file. */
  function SelectedDigests(env: Env, listing: seq<DirEntry>): set<Id>
  {
    set d | d in Selected(listing) :: env.hash(d.content)
  }

  lemma SelectedDigestsStep(env: Env, listing: seq<DirEntry>)
    requires |listing| > 0
    ensures Kept(listing[0]) ==>
              SelectedDigests(env, listing) == {env.hash(listing[0].content)} + SelectedDigests(env, listing[1..])
    ensures !Kept(listing[0]) ==> SelectedDigests(env, listing) == SelectedDigests(env, listing[1..])
  {
    if Kept(listing[0]) {
      assert Selected(listing) == [listing[0]] + Selected(listing[1..]);
    }
  }

  /** On an initialised repository `add .` writes only under the digests of
      the selected files: exactly those ids are added or replaced, and every
      other object is unchanged. */
  lemma {:induction false} AddAllWritesSelected(env: Env, r: Repo, cwd: string, listing: seq<DirEntry>)
    requires r.objectsDir && r.index.Some?
    ensures var o := AddAll(env, r, cwd, listing);
            && o.repo.objects.Keys == r.objects.Keys + SelectedDigests(env, listing)
            && (forall k :: k in r.objects && k !in SelectedDigests(env, listing) ==> o.repo.objects[k] == r.objects[k])
    decreases |listing|
  {
    if |listing| == 0 {
    } else if !Kept(listing[0]) {
      AddAllSkips(env, r, cwd, listing);
      SelectedDigestsStep(env, listing);
      AddAllWritesSelected(env, r, cwd, listing[1..]);
    } else {
      var d0 := listing[0];
      var e0 := Entry(JoinPath(cwd, d0.name), env.hash(d0.content));
      var r1 := r.(objects := Put(env, r.objects, d0.content), index := Some(r.index.value + [e0]));
      AddAllTakes(env, r, cwd, listing);
      SelectedDigestsStep(env, listing);
      AddAllWritesSelected(env, r1, cwd, listing[1..]);
    }
  }

  /** No two selected files share a digest without sharing content. */
  ghost predicate SelectedCollisionFree(env: Env, listing: seq<DirEntry>)
  {
    forall d, e :: d in Selected(listing) && e in Selected(listing) && env.hash(d.content) == env.hash(e.content) ==>
      d.content == e.content
  }

  /** On an initialised repository, after `add .` each selected file reads
      back under its digest as its own content, when no two selected files
      collide. */
  lemma {:induction false} AddAllStoresBlobs(env: Env, r: Repo, cwd: string, listing: seq<DirEntry>)
    requires r.objectsDir && r.index.Some?
    requires SelectedCollisionFree(env, listing)
    ensures forall d :: d in Selected(listing) ==>
              Get(AddAll(env, r, cwd, listing).repo.objects, env.hash(d.content)) == Some(d.content)
    decreases |listing|
  {
    if |listing| == 0 {
    } else if !Kept(listing[0]) {
      AddAllSkips(env, r, cwd, listing);
      AddAllStoresBlobs(env, r, cwd, listing[1..]);
    } else {
      var d0 := listing[0];
      var h0 := env.hash(d0.content);
      var e0 := Entry(JoinPath(cwd, d0.name), h0);
      var r1 := r.(objects := Put(env, r.objects, d0.content), index := Some(r.index.value + [e0]));
      var rest := listing[1..];
      AddAllTakes(env, r, cwd, listing);
      assert Selected(listing) == [d0] + Selected(rest);
      AddAllStoresBlobs(env, r1, cwd, rest);
      AddAllWritesSelected(env, r1, cwd, rest);
      var o := AddAll(env, r1, cwd, rest);
      if h0 in SelectedDigests(env, rest) {
        var e :| e in Selected(rest) && env.hash(e.content) == h0;
        assert Get(o.repo.objects, h0) == Some(d0.content);
      } else {
        assert Get(o.repo.objects, h0) == Some(d0.content);
      }
    }
  }

  /** `add .` keeps the invariant and leaves `log` unchanged, provided every
      selected file's blob meets no other content, neither in the store nor
      among the selected files. */
  lemma {:induction false} AddAllPreservesValid(env: Env, r: Repo, cwd: string, listing: seq<DirEntry>)
    requires Valid(env, r)
    requires forall d :: d in Selected(listing) ==> NoCollision(env, r.objects, d.content)
    requires SelectedCollisionFree(env, listing)
    ensures var r' := AddAll(env, r, cwd, listing).repo;
            && Valid(env, r')
            && Log(env, r'.objects, r'.head) == Log(env, r.objects, r.head)
    decreases |listing|
  {
    if |listing| == 0 {
    } else if !Kept(listing[0]) {
      AddAllSkips(env, r, cwd, listing);
      AddAllPreservesValid(env, r, cwd, listing[1..]);
    } else {
      var d0 := listing[0];
      var o := AddFile(env, r, JoinPath(cwd, d0.name), d0.content);
      assert Selected(listing) == [d0] + Selected(listing[1..]);
      AddFilePreservesValid(env, r, JoinPath(cwd, d0.name), d0.content);
      if o.failure.None? {
        forall d | d in Selected(listing[1..]) ensures NoCollision(env, o.repo.objects, d.content) {
          assert d in Selected(listing);
        }
        AddAllPreservesValid(env, o.repo, cwd, listing[1..]);
      }
    }
  }

  lemma ConcatAssoc(a: seq<Entry>, b: seq<Entry>, c: seq<Entry>)
    ensures a + b + c == a + (b + c)
  {
  }
}

=== FILE: show.dfy ===
/**
  `show <id>`: for each file a commit records, its content and -- when the
  commit has a truthy parent -- either "new file in this commit" or a line
  diff of the parent's version against this one. The line diff itself
  belongs to an external library; the model keeps the pair of texts it is
  given, in the order it is given them.
 */
module Show {
  import opened Types
  import opened ObjectStore
  import opened History
  import opened Repository

  /** What `show` reports about one file against the parent commit. */
  datatype Change =
    | NoParent                   // the commit's parent is falsy: nothing compared
    | NewFile                    // the parent has no entry for the path
    | Diff(previous: Text, current: Text) // diffLines(previous, current)

  datatype FileReport = FileReport(path: string, hash: Id, content: Text, change: Change)

  /** `CommitNotFound` when objects/<id> does not exist; otherwise the files
      reported, in order, and the error that stopped the loop, if any. */
  datatype ShowResult = CommitNotFound | Shown(reports: seq<FileReport>, failure: Option<Error>)

  /** Entry `i` is the first one of `files` for `path`. */
  predicate IsFirstMatch(files: seq<Entry>, path: string, i: int)
  {
    && 0 <= i < |files|
    && files[i].path == path
    && forall j :: 0 <= j < i ==> files[j].path != path
  }

  /** `files.find(f => f.path === path)`, as an index. */
  function Find(files: seq<Entry>, path: string): (r: Option<nat>)
    ensures r.None? <==> forall i :: 0 <= i < |files| ==> files[i].path != path
    ensures r.Some? ==> IsFirstMatch(files, path, r.value)
  {
    if |files| == 0 then None
    else if files[0].path == path then Some(0)
    else match Find(files[1..], path)
      case None =>
        assert forall i :: 1 <= i < |files| ==> files[i] == files[1..][i - 1];
        None
      case Some(k) =>
        assert forall j :: 1 <= j < k + 1 ==> files[j] == files[1..][j - 1];
        Some(k + 1)
  }

  /** `getParentFileContent`: the content of the first entry for `path` in
      the commit stored under `parentId`; nothing (undefined) when that
      commit is missing or has no entry for the path. Throws when the commit
      does not parse or the entry's blob is missing. */
  function GetParentFileContent(env: Env, s: Store, path: string, parentId: Id): (r: Result<Option<Text>>)
    ensures parentId !in s ==> r == Success(None)
    ensures parentId in s && env.parse(s[parentId]).None? ==> r == Failure(Malformed(parentId))
    ensures Load(env, s, parentId).Some? ==>
              var files := Load(env, s, parentId).value.files;
              && ((forall i :: 0 <= i < |files| ==> files[i].path != path) ==> r == Success(None))
              && (forall i :: IsFirstMatch(files, path, i) ==>
                    r == (if files[i].hash in s then Success(Some(s[files[i].hash])) else Failure(ObjectNotFound(files[i].hash))))
  {
    if parentId !in s then Success(None)
    else match env.parse(s[parentId])
      case None => Failure(Malformed(parentId))
      case Some(rec) =>
        match Find(rec.files, path)
        case None => Success(None)
        case Some(i) =>
          var h := rec.files[i].hash;
          if h in s then Success(Some(s[h])) else Failure(ObjectNotFound(h))
  }

  /** One turn of the loop of `showCommitDiff`: read the file's blob
      (throwing when it is missing), then compare with the parent's version
      when the parent link is truthy. The parent is read twice in
      `showCommitDiff` and the first read's result is unused; both throw in the same cases. */
  function ReportFile(env: Env, s: Store, parent: Option<Id>, e: Entry): (r: Result<FileReport>)
    ensures e.hash !in s ==> r == Failure(ObjectNotFound(e.hash))
    ensures r.Success? ==> e.hash in s && r.value == FileReport(e.path, e.hash, s[e.hash], r.value.change)
    ensures e.hash in s && !Truthy(parent) ==> r == Success(FileReport(e.path, e.hash, s[e.hash], NoParent))
    ensures r.Success? && Truthy(parent) ==> !r.value.change.NoParent?
    ensures r.Success? && r.value.change.NewFile? <==>
              && e.hash in s && Truthy(parent)
              && (parent.value !in s
                  || (Load(env, s, parent.value).Some?
                      && forall i :: 0 <= i < |Load(env, s, parent.value).value.files| ==>
                           Load(env, s, parent.value).value.files[i].path != e.path))
    ensures r.Success? && r.value.change.Diff? ==>
              && Truthy(parent)
              && r.value.change.current == s[e.hash]
              && Load(env, s, parent.value).Some?
              && exists i :: && IsFirstMatch(Load(env, s, parent.value).value.files, e.path, i)
                             && Get(s, Load(env, s, parent.value).value.files[i].hash) == Some(r.value.change.previous)
    ensures e.hash in s && Truthy(parent) && parent.value in s && env.parse(s[parent.value]).None? ==>
              r == Failure(Malformed(parent.value))
    ensures e.hash in s && Truthy(parent) && Load(env, s, parent.value).Some? ==>
              var files := Load(env, s, parent.value).value.files;
              forall i :: IsFirstMatch(files, e.path, i) ==>
                r == (if files[i].hash in s
                      then Success(FileReport(e.path, e.hash, s[e.hash], Diff(s[files[i].hash], s[e.hash])))
                      else Failure(ObjectNotFound(files[i].hash)))
  {
    if e.hash !in s then Failure(ObjectNotFound(e.hash))
    else
      var content := s[e.hash];
      if !Truthy(parent) then Success(FileReport(e.path, e.hash, content, NoParent))
      else match GetParentFileContent(env, s, e.path, parent.value)
        case Failure(err) => Failure(err)
        case Success(None) => Success(FileReport(e.path, e.hash, content, NewFile))
        case Success(Some(previous)) =>
          var i := Find(Load(env, s, parent.value).value.files, e.path).value;
          assert IsFirstMatch(Load(env, s, parent.value).value.files, e.path, i);
          Success(FileReport(e.path, e.hash, content, Diff(previous, content)))
  }

  /** The `for` loop of `showCommitDiff` over `files`: each file in order,
      stopping at the first throw. */
  function ReportFiles(env: Env, s: Store, parent: Option<Id>, files: seq<Entry>): (r: ShowResult)
    ensures r.Shown?
    ensures |r.reports| <= |files|
    ensures forall i :: 0 <= i < |r.reports| ==> ReportFile(env, s, parent, files[i]) == Success(r.reports[i])
    ensures r.failure.None? ==> |r.reports| == |files|
    ensures r.failure.Some? ==>
              |r.reports| < |files| && ReportFile(env, s, parent, files[|r.reports|]) == Failure(r.failure.value)
  {
    if |files| == 0 then Shown([], None)
    else match ReportFile(env, s, parent, files[0])
      case Failure(err) => Shown([], Some(err))
      case Success(fr) =>
        var rest := ReportFiles(env, s, parent, files[1..]);
        assert forall i :: 1 <= i < |files| ==> files[i] == files[1..][i - 1];
        Shown([fr] + rest.reports, rest.failure)
  }

  /** `showCommitDiff`: "not found" when objects/<id> does not exist (the
      null read parses to null); a throw when it is not a commit record;
      otherwise the report of every recorded file. */
  function ShowCommitDiff(env: Env, s: Store, id: Id): (r: ShowResult)
    ensures r.CommitNotFound? <==> id !in s
    ensures id in s && env.parse(s[id]).None? ==> r == Shown([], Some(Malformed(id)))
    ensures Load(env, s, id).Some? ==>
              var rec := Load(env, s, id).value;
              && r.Shown?
              && |r.reports| <= |rec.files|
              && (forall i :: 0 <= i < |r.reports| ==> ReportFile(env, s, rec.parent, rec.files[i]) == Success(r.reports[i]))
              && (r.failure.None? ==> |r.reports| == |rec.files|)
              && (r.failure.Some? ==>
                    && |r.reports| < |rec.files|
                    && ReportFile(env, s, rec.parent, rec.files[|r.reports|]) == Failure(r.failure.value))
  {
    if id !in s then CommitNotFound
    else match env.parse(s[id])
      case None => Shown([], Some(Malformed(id)))
      case Some(rec) => ReportFiles(env, s, rec.parent, rec.files)
  }

  /** A commit whose parent is falsy -- the first commit after `init`, or
      one made with HEAD missing -- is shown with no comparison at all. */
  lemma RootCommitShowsNoDiff(env: Env, s: Store, id: Id)
    requires Load(env, s, id).Some? && !Truthy(Load(env, s, id).value.parent)
    ensures var r := ShowCommitDiff(env, s, id);
            && r.Shown?
            && forall i :: 0 <= i < |r.reports| ==> r.reports[i].change == NoParent
  {
    var r := ShowCommitDiff(env, s, id);
    forall i | 0 <= i < |r.reports| ensures r.reports[i].change == NoParent {
      var rec := Load(env, s, id).value;
      assert ReportFile(env, s, rec.parent, rec.files[i]) == Success(r.reports[i]);
    }
  }

  /** When the parent commit object is missing, every file whose blob is
      present is reported as new. */
  lemma MissingParentMeansNewFiles(env: Env, s: Store, parent: Option<Id>, e: Entry)
    requires Truthy(parent) && parent.value !in s && e.hash in s
    ensures ReportFile(env, s, parent, e) == Success(FileReport(e.path, e.hash, s[e.hash], NewFile))
  {
  }

  /** A file added (at a path not yet staged) and then committed reads back
      from that commit with exactly the content added. The two writes are
      assumed to meet no other content under their digests. */
  lemma AddThenCommitRoundTrip(env: Env, r: Repo, path: string, content: Text, message: string, timeStamp: string)
    requires ParseInvertsSerialize(env)
    requires r.objectsDir && r.index.Some?
    requires forall i :: 0 <= i < |r.index.value| ==> r.index.value[i].path != path
    requires NoCollision(env, r.objects, content)
    requires var r1 := AddFile(env, r, path, content).repo;
             NoCollision(env, r1.objects, env.serialize(NewRecord(r1, message, timeStamp)))
    ensures var r1 := AddFile(env, r, path, content).repo;
            var r2 := Commit(env, r1, message, timeStamp).repo;
            GetParentFileContent(env, r2.objects, path, r2.head.value) == Success(Some(content))
  {
    var r1 := AddFile(env, r, path, content).repo;
    var r2 := Commit(env, r1, message, timeStamp).repo;
    var idx := r1.index.value;
    var n := |r.index.value|;
    CommitRecordReadsBack(env, r1, message, timeStamp);
    assert IsFirstMatch(idx, path, n);
    var c := env.serialize(NewRecord(r1, message, timeStamp));
    PutExtends(env, r1.objects, c);
  }

  /** The first commit after `init` is shown with no comparison. */
  lemma FirstCommitShowsNoDiff(env: Env, r: Repo, message: string, timeStamp: string)
    requires ParseInvertsSerialize(env)
    requires r.head.None?
    ensures var r0 := Init(r);
            var r1 := Commit(env, r0, message, timeStamp).repo;
            var shown := ShowCommitDiff(env, r1.objects, r1.head.value);
            && Load(env, r1.objects, r1.head.value).Some?
            && Load(env, r1.objects, r1.head.value).value.parent == Some("")
            && shown.Shown?
            && forall i :: 0 <= i < |shown.reports| ==> shown.reports[i].change == NoParent
  {
    var r0 := Init(r);
    var r1 := Commit(env, r0, message, timeStamp).repo;
    CommitRecordReadsBack(env, r0, message, timeStamp);
    RootCommitShowsNoDiff(env, r1.objects, r1.head.value);
  }

  /** A parent file read that found a blob gives the same blob in any store
      that keeps every object unchanged. */
  lemma ParentContentInLargerStore(env: Env, s: Store, s': Store, path: string, parentId: Id)
    requires Extends(s, s')
    requires GetParentFileContent(env, s, path, parentId).Success?
    requires GetParentFileContent(env, s, path, parentId).value.Some?
    ensures GetParentFileContent(env, s', path, parentId) == GetParentFileContent(env, s, path, parentId)
  {
  }

  /** Staging the same path twice, with content `a` and then `b`, and
      committing: the committed path reads back as `a`, because the lookup
      takes the first, oldest, entry for the path. */
  lemma StagedTwiceReadsFirst(env: Env, r: Repo, path: string, a: Text, b: Text, message: string, timeStamp: string)
    requires ParseInvertsSerialize(env)
    requires r.objectsDir && r.index.Some?
    requires forall i :: 0 <= i < |r.index.value| ==> r.index.value[i].path != path
    requires NoCollision(env, r.objects, a)
    requires NoCollision(env, AddFile(env, r, path, a).repo.objects, b)
    requires var r2 := AddFile(env, AddFile(env, r, path, a).repo, path, b).repo;
             NoCollision(env, r2.objects, env.serialize(NewRecord(r2, message, timeStamp)))
    ensures var r2 := AddFile(env, AddFile(env, r, path, a).repo, path, b).repo;
            var r3 := Commit(env, r2, message, timeStamp).repo;
            GetParentFileContent(env, r3.objects, path, r3.head.value) == Success(Some(a))
  {
    var r1 := AddFile(env, r, path, a).repo;
    var r2 := AddFile(env, r1, path, b).repo;
    var n := |r.index.value|;
    CommitRecordReadsBack(env, r2, message, timeStamp);
    assert r2.index.value[n] == Entry(path, env.hash(a));
    assert IsFirstMatch(r2.index.value, path, n);
    PutExtends(env, r.objects, a);
    PutExtends(env, r1.objects, b);
    PutExtends(env, r2.objects, env.serialize(NewRecord(r2, message, timeStamp)));
  }

  /** Commit `a` at a path, then stage `b` at the same path and commit
      again: `show` on the second commit reports exactly one file, a diff of
      `a` against `b`, in that order. */
  lemma EditThenCommitShowsDiff(env: Env, r: Repo, path: string, a: Text, b: Text,
                                m1: string, t1: string, m2: string, t2: string)
    requires ParseInvertsSerialize(env) && DigestShaped(env)
    requires r.objectsDir && r.index == Some([])
    requires NoCollision(env, r.objects, a)
    requires var r1 := AddFile(env, r, path, a).repo;
             NoCollision(env, r1.objects, env.serialize(NewRecord(r1, m1, t1)))
    requires NoCollision(env, Commit(env, AddFile(env, r, path, a).repo, m1, t1).repo.objects, b)
    requires var r3 := AddFile(env, Commit(env, AddFile(env, r, path, a).repo, m1, t1).repo, path, b).repo;
             NoCollision(env, r3.objects, env.serialize(NewRecord(r3, m2, t2)))
    ensures var r2 := Commit(env, AddFile(env, r, path, a).repo, m1, t1).repo;
            var r4 := Commit(env, AddFile(env, r2, path, b).repo, m2, t2).repo;
            ShowCommitDiff(env, r4.objects, r4.head.value)
            == Shown([FileReport(path, env.hash(b), b, Diff(a, b))], None)
  {
    var r1 := AddFile(env, r, path, a).repo;
    var r2 := Commit(env, r1, m1, t1).repo;
    var r3 := AddFile(env, r2, path, b).repo;
    var r4 := Commit(env, r3, m2, t2).repo;
    var id1 := r2.head.value;
    AddThenCommitRoundTrip(env, r, path, a, m1, t1);
    assert Truthy(Some(id1)) by { assert |id1| == 40; }
    PutExtends(env, r2.objects, b);
    PutExtends(env, r3.objects, env.serialize(NewRecord(r3, m2, t2)));
    ParentContentInLargerStore(env, r2.objects, r4.objects, path, id1);
    CommitRecordReadsBack(env, r3, m2, t2);
    var e := Entry(path, env.hash(b));
    assert r3.index.value == [e];
    ShowOneFile(env, r4.objects, r4.head.value, CommitRecord(t2, m2, [e], Some(id1)), a);
  }

  /** A commit of one file whose parent holds content `a` for the same path
      is shown as that one file, diffed against `a`. */
  lemma ShowOneFile(env: Env, s: Store, id: Id, rec: CommitRecord, a: Text)
    requires Load(env, s, id) == Some(rec) && |rec.files| == 1
    requires rec.files[0].hash in s && Truthy(rec.parent)
    requires GetParentFileContent(env, s, rec.files[0].path, rec.parent.value) == Success(Some(a))
    ensures ShowCommitDiff(env, s, id)
            == Shown([FileReport(rec.files[0].path, rec.files[0].hash, s[rec.files[0].hash], Diff(a, s[rec.files[0].hash]))], None)
  {
    assert rec.files[1..] == [];
  }
}

=== FILE: types.dfy ===
/**
  Values shared by every part of the Twig store: object identifiers, staging
  entries, commit records, errors, and the three primitives the store only ever
  calls -- the SHA-1 digest, JSON serialisation of a commit record and JSON
  parsing of a stored object. The primitives are carried in an `Env` value so
  that every operation is a pure function of its inputs.
 */
module Types {

  /** A hex digest naming a stored object. */
  type Id = string

  /** The utf-8 text of a file or of a serialised commit record. */
  type Text = string

  datatype Option<+T> = None | Some(value: T)

  /** The ways an operation of the store can throw. */
  datatype Error =
    | ObjectNotFound(id: Id)   // reading objects/<id> failed
    | Malformed(id: Id)        // objects/<id> does not parse as a commit record
    | IndexMissing             // reading the index file failed
    | ObjectsDirMissing        // writing under objects/ failed

  datatype Result<+T> = Success(value: T) | Failure(error: Error)

  /** One staged file: the path as given to `add` and the id of its blob. */
  datatype Entry = Entry(path: string, hash: Id)

  /** A commit object once parsed. `parent` is whatever HEAD held when the
      commit was made: a digest, the empty string after `init`, or null
      (`None`) when the HEAD file was missing. */
  datatype CommitRecord = CommitRecord(timeStamp: string, message: string, files: seq<Entry>, parent: Option<Id>)

  /** The primitives: the digest of a text, JSON.stringify of a commit record,
      and JSON.parse of a stored object read back as a commit record (`None`
      when it is not one). */
  datatype Env = Env(hash: Text -> Id, serialize: CommitRecord -> Text, parse: Text -> Option<CommitRecord>)

  /** JavaScript truthiness of a HEAD value or parent link: both null and ""
      mean "no commit". */
  predicate Truthy(p: Option<Id>)
  {
    p.Some? && p.value != ""
  }

  /** JSON.parse gives back every record JSON.stringify wrote. */
  ghost predicate ParseInvertsSerialize(env: Env)
  {
    forall c :: env.parse(env.serialize(c)) == Some(c)
  }

  /** A SHA-1 hex digest is always 40 characters long. */
  ghost predicate DigestShaped(env: Env)
  {
    forall t :: |env.hash(t)| == 40
  }
}
